=== FILE: README.md ===
# Call-control response builder, modelled in Dafny

This project models the response builder of the menu_system telephone dialog server (`twiml.py`). The builder keeps an in-memory tree of call directives and turns it into the XML document that the Twilio voice platform reads at each turn of a call.

- **Directives.** There are four kinds: `Say` (spoken text plus keyword arguments), `Pause` (a length), `Hangup`, and `Gather` (digit collection with `numDigits`, `action` and nested nodes). They form the closed datatype `Directives.Node`, which replaces the string-keyed `_classes` table.
- **Response.** `Builder.Response` is the ordered top-level container. It also owns the table of defaults (`globals`), which starts as `language = en-AU`.
- **Builder calls.** Each builder call is a pure function from the old response to the new one.
  - `Response.gather` appends an empty Gather and returns a handle to it. The handle is the Gather's index in the response's contents. Later `say` calls through the handle (`Builder.GatherSay`) update that Gather in place. This reproduces the sharing between the returned Gather object and the response's contents for the `gather`-then-`say` pattern.
  - Python's chaining (`add` returns the container) becomes function composition.
- **Rendering.** Rendering produces an abstract element tree (`Xml.Element`: tag, attribute map, optional text, children). A document is the fixed declaration `<?xml version="1.0" encoding="UTF-8"?>` followed by the `Response` root element.
  - Defaults are a parameter of rendering. A `Say` never stores them, so they are read when the document is rendered.
  - `Render.ParseNode` reads an element back. It shows that rendering keeps every directive, in order. Rendering loses two things: the defaults it resolved into each `Say`, and whether a pause length was an integer or a string (`Pause(Int(1))` and `Pause(Text("1"))` render the same).
- **Pause length.** The value is rendered with Python's `str`. Integers are written out in decimal (`Values.PyStr`), and a parse-back lemma shows that no information is lost.

Facts about `twiml.py` the model keeps:
- `twiml.py` has no `Play` directive.
- A Gather inherits the generic `add`, so its children are not limited to `Say` nodes. `Builder.GatherAdd` models that generic add.
- Only `Say` drops `None` attributes. `Gather` always renders both `action` and `numDigits`.

## Model

| member | source | states |
|---|---|---|
| Globals.MergeGlobals | twiml.py:121-127 | result keys are exactly the default keys plus the keyword arguments that are not None; every non-None argument overrides its default; every other default is kept; the defaults themselves are an unchanged input |
| Globals.MergeLanguage | twiml.py:96-100 | merging the single `language` argument of a `say` call gives `SayAttrs`: the defaults with `language` replaced when given, and the defaults unchanged when it is None |
| Render.RenderNode | twiml.py:46-80 | each node kind renders to its own tag: `Say` with its text, no children and its keyword arguments merged over the defaults as its attributes, `Pause` with exactly a `length` attribute equal to `str(length)`, `Hangup` as an empty element, `Gather` with exactly `action` and `numDigits` attributes and its children's renderings nested in order; partners `Render.ParseRenderNode` and `Render.RenderResolvedNode` |
| Render.RenderAll | twiml.py:9-21 | a container renders to exactly one element per node, element i being node i's rendering, so nothing is dropped, reordered or merged |
| Render.RenderAllAppend | twiml.py:16-21 | rendering contents with nodes appended is the old rendering followed by the new nodes' renderings |
| Render.Resolve | twiml.py:62-63 | resolving the defaults of a node keeps its kind, its text, its Gather attributes and its number of children |
| Render.ParseRenderNode | twiml.py:46-80 | reading a rendered node back gives the node with its defaults resolved, so each node kind renders to an element that identifies it and all its fields |
| Render.ParseRenderAll | twiml.py:9 | reading back a rendered sequence of nodes gives the same sequence, in order, defaults resolved |
| Render.RenderResolvedNode | twiml.py:62-63 | a node with its defaults already resolved renders exactly like the original node |
| Builder.NewResponse | twiml.py:86-94 | a new response has no contents, and its defaults table is exactly `language = en-AU` |
| Builder.Add | twiml.py:16-18 | add puts the node last, keeps every earlier node and the defaults unchanged, and returns the container |
| Builder.AddAll | twiml.py:16-18 | a chain of adds leaves the contents as the old contents followed by the added nodes in call order |
| Builder.AddAllRendering | twiml.py:108-109 | after a chain of adds the document's children are the old children followed by the new nodes' renderings in append order |
| Builder.ToXml | twiml.py:108-112 | the document is the fixed XML declaration plus a `Response` root with no attributes and no text, whose i-th child is the rendering of the i-th appended node under the current defaults |
| Builder.AddSay | twiml.py:96-100 | say stores one more `Say` node after the unchanged earlier nodes, holding its own arguments and no resolved defaults, and keeps the defaults table; it adds exactly one `Say` element at the end of the document, with the given text and the defaults merged with the given language |
| Builder.AddPause | twiml.py:102-103 | pause stores one more `Pause` node after the unchanged earlier nodes and keeps the defaults table; it adds exactly one `Pause` element at the end of the document, with `length` set to `str(length)` and no text or children |
| Builder.AddHangup | twiml.py:105-106 | hangup stores one more `Hangup` node after the unchanged earlier nodes and keeps the defaults table; it adds exactly one empty `Hangup` element at the end of the document |
| Builder.AddGather | twiml.py:114-119 | gather appends one empty Gather with the given `numDigits` and `action`, and returns a handle to that Gather rather than the response |
| Builder.GatherAdd | twiml.py:16-18 | add on a Gather puts the node last among that Gather's children; the response keeps its length, its defaults and every other node |
| Builder.GatherSay | twiml.py:39-44 | say on a Gather appends one `Say` to that Gather only; the response gains no node, and the handle stays valid |
| Builder.GatherSayAll | twiml.py:39-44 | a run of say calls on a Gather keeps the handle valid and leaves the response's length and defaults unchanged |
| Builder.GatherSayAllEffect | twiml.py:39-44 | a run of say calls on a Gather appends their `Say` nodes to that Gather's children in call order and changes nothing else in the response |
| Builder.GatherBuiltInPlace | twiml.py:114-119 | appending a Gather and then filling it through its handle gives the same response as appending the Gather with its children already complete |
| Builder.GatherSayCommutesWithAdd | twiml.py:39-44 | appending to the response does not invalidate a Gather handle, and a later say through the handle still lands inside that Gather |
| Builder.GatherRendering | twiml.py:46-51 | a Gather built through its handle renders as a `Gather` element with attributes exactly `action` and `numDigits`, holding one `Say` per say call in call order, each in its own language or else the default; earlier children are unchanged |
| Builder.GatherDocument | twiml.py:108-119 | after a Gather is appended and filled through its handle, the document's children are the earlier children followed by the rendering of the completed Gather |
| Builder.SaysRendering | twiml.py:62-63 | a run of `Say` nodes renders one `Say` element per call, in order, with its text and with the language resolved against the defaults |
| Builder.SayResolvedAtRender | twiml.py:57-63 | a `Say` renders with the defaults the response holds at render time: defaults replaced after the say call decide its language unless the call gave one |
| Builder.DocumentRoundTrip | twiml.py:108-112 | reading the document back gives exactly the appended directives, in append order, with their defaults resolved |
| Builder.LocationPromptDocument | test.py:46-59 | a nine-digit Gather to `/location/id_recieved` with one prompt renders as the expected document, including `language="en-AU"` on the nested `Say` |
| Builder.PauseOneRendering | twiml.py:72-73 | `pause(1)` renders a `Pause` element whose `length` is `"1"` |
| Values.PyStr | twiml.py:73 | `str` on a string is that string; on an integer it is a `-` exactly when the integer is negative, followed by the canonical decimal digits of its magnitude, with no leading zero except for zero itself |
| Values.NatToDecimal | twiml.py:73 | the decimal form of a natural number is non-empty, all digits, and starts with `0` only for zero |
| Values.DecimalRoundTrip | twiml.py:73 | the decimal digits of n denote n |
| Values.IntStrRoundTrip | twiml.py:72-73 | parsing `str(i)` as an integer gives back i, so the rendered pause length loses nothing |
| Values.IntStrInjective | twiml.py:73 | two different integer lengths never render to the same `length` attribute |

## Left out

- Strings that lxml refuses while building the tree are not modelled. `E.Say`, `E.Gather` and `E.Pause` raise ValueError for text or attribute values holding NUL or other C0 control characters. The model renders every string.
- A defaults table holding `None` values is not modelled. `merge_globals` drops `None` only from the keyword arguments, not from `globals`, and the model types the defaults as strings.
- Text serialisation by lxml (`tounicode`) is not modelled. That covers XML escaping, attribute order and empty-element spelling. The document is the declaration string plus an abstract root element.
- Deep-copying `globals` in `merge_globals` needs no model. Values are immutable here, so a merge can never change the defaults, and repeated renders see the same defaults by construction.
- The string-keyed `_classes` table and its overridability are not modelled. Directives are the closed datatype `Directives.Node`.
- The no-op context-manager methods of `Gather` (`__enter__`/`__exit__`) are not modelled. They do nothing.
- Builder.AddGather: `numDigits` and `action` are required strings. Passing `None` (the Python defaults) or a non-string hands lxml an attribute value whose behaviour is the library's, not the builder's.
- A `Say` node's back-reference to its root is not stored. Rendering is given the defaults of the response being rendered, which are the defaults every `Say` created through that response's builder calls points at.
- Sharing of node objects is not modelled. A node object shared between two containers is an independent copy in the model, for example a Gather that is both returned by `gather` and passed to `add` again. So is a node moved to another response. Later `say` calls reach only the copy behind the handle, and a moved `Say` renders with the defaults of the response that renders it, not of the response that created it.
- Builder.GatherSay: returns the response, not the Gather object that Python's `Gather.say` returns. The handle is unchanged, so chained say calls are consecutive `GatherSay` calls on the same handle.
- The Flask routes, the Twilio REST client and the outbound call trigger in `server.py` are not modelled. They are I/O, and that file builds its documents with the third-party Twilio library, not this builder.
- The payphone lookup client and the secret loading (`payphones.py`, `auth.py`) are not modelled. They are network and environment I/O.
- The location, directions, easter-egg and signature flows asserted in `test.py` are not modelled. No part of this model implements them. Only the first location prompt is reproduced, as a concrete document built with this builder.
- Values.PyStr: a pause length is modelled as an integer or a string only. Python's `str` on other values (floats, arbitrary objects) is not modelled, because the builder's callers pass integers or digit strings.

=== FILE: builder.dfy ===
/** The response builder (twiml.py, classes `Container`, `Gather` and
    `Response`). A value of `Response` is the builder's state; each builder
    call returns the new state. `Response.gather` hands back the `Gather` it
    appended, which later `say` calls fill in place: here that handle is the
    Gather's index in the response's contents. */
module Builder {
  import opened Values
  import opened Xml
  import opened Globals
  import opened Directives
  import opened Render

  /** The ordered top-level container and the defaults table it owns. */
  datatype Response = Response(contents: seq<Node>, globals: map<string, string>)

  /** A fresh response: nothing appended, language default `en-AU`. */
  function NewResponse(): (r: Response)
    ensures r.contents == []
    ensures r.globals == map["language" := "en-AU"]
  {
    Response([], DefaultGlobals)
  }

  /** `Container.add`: the node goes last, everything before it stays, and
      the (same) container comes back, so calls chain. */
  function Add(r: Response, n: Node): (r': Response)
    ensures |r'.contents| == |r.contents| + 1
    ensures r'.contents[..|r.contents|] == r.contents
    ensures r'.contents[|r.contents|] == n
    ensures r'.globals == r.globals
  {
    r.(contents := r.contents + [n])
  }

  /** A run of `add` calls, chained. */
  function AddAll(r: Response, ns: seq<Node>): (r': Response)
    ensures r'.contents == r.contents + ns
    ensures r'.globals == r.globals
    decreases |ns|
  {
    if ns == [] then r else AddAll(Add(r, ns[0]), ns[1..])
  }

  /** `Response.toxml`: the declaration, then a `Response` root whose children
      are the contents' renderings in append order, with the defaults read
      from the response now. */
  function ToXml(r: Response): (d: Document)
    ensures d.declaration == Declaration
    ensures d.root.tag == "Response" && d.root.attrs == map[] && d.root.text == None
    ensures |d.root.children| == |r.contents|
    ensures forall i :: 0 <= i < |r.contents| ==> d.root.children[i] == RenderNode(r.contents[i], r.globals)
  {
    Document(Declaration, Element("Response", map[], None, RenderAll(r.contents, r.globals)))
  }

  /** `Response.say`: the response stores one more `Say`, with its defaults
      left unresolved; the document gains one `Say` element at the end, whose
      language is the given one or else the current default. */
  function AddSay(r: Response, text: string, language: Option<string>): (r': Response)
    ensures r'.contents == r.contents + [SayNode(Line(text, language))] && r'.globals == r.globals
    ensures ToXml(r').root.children == ToXml(r).root.children
              + [Element("Say", MergeGlobals(r.globals, map["language" := language]), Some(text), [])]
  {
    RenderAllAppend(r.contents, [SayNode(Line(text, language))], r.globals);
    Add(r, SayNode(Line(text, language)))
  }

  /** `Response.pause`: the response stores one more `Pause`; the document
      gains one `Pause` element at the end, whose `length` is `str(length)`. */
  function AddPause(r: Response, length: Scalar): (r': Response)
    ensures r'.contents == r.contents + [Pause(length)] && r'.globals == r.globals
    ensures ToXml(r').root.children == ToXml(r).root.children
              + [Element("Pause", map["length" := PyStr(length)], None, [])]
  {
    RenderAllAppend(r.contents, [Pause(length)], r.globals);
    Add(r, Pause(length))
  }

  /** `Response.hangup`: the response stores one more `Hangup`; the document
      gains one empty `Hangup` element at the end. */
  function AddHangup(r: Response): (r': Response)
    ensures r'.contents == r.contents + [Hangup] && r'.globals == r.globals
    ensures ToXml(r').root.children == ToXml(r).root.children + [Element("Hangup", map[], None, [])]
  {
    RenderAllAppend(r.contents, [Hangup], r.globals);
    Add(r, Hangup)
  }

  /** `h` designates a Gather among the top-level contents of `r`. */
  predicate IsGatherHandle(r: Response, h: nat) {
    h < |r.contents| && r.contents[h].Gather?
  }

  /** `Response.gather`: appends an empty Gather and returns the response
      together with the handle of that Gather (not the response itself). */
  function AddGather(r: Response, numDigits: string, action: string): (res: (Response, nat))
    ensures res.1 == |r.contents| && IsGatherHandle(res.0, res.1)
    ensures res.0.contents == r.contents + [Gather(numDigits, action, [])] && res.0.globals == r.globals
  {
    (Add(r, Gather(numDigits, action, [])), |r.contents|)
  }

  /** `Container.add` on the Gather behind handle `h`: the node goes last in
      that Gather; the response keeps its length and every other node. */
  function GatherAdd(r: Response, h: nat, n: Node): (r': Response)
    requires IsGatherHandle(r, h)
    ensures IsGatherHandle(r', h)
    ensures r'.contents == r.contents[h := r'.contents[h]] && r'.globals == r.globals
    ensures r'.contents[h].numDigits == r.contents[h].numDigits
    ensures r'.contents[h].action == r.contents[h].action
    ensures r'.contents[h].contents == r.contents[h].contents + [n]
  {
    var g := r.contents[h];
    r.(contents := r.contents[h := g.(contents := g.contents + [n])])
  }

  /** `Gather.say` through handle `h`: the new `Say` goes into that Gather only. */
  function GatherSay(r: Response, h: nat, line: Line): (r': Response)
    requires IsGatherHandle(r, h)
    ensures IsGatherHandle(r', h)
    ensures r'.contents == r.contents[h := r'.contents[h]] && r'.globals == r.globals
    ensures r'.contents[h].numDigits == r.contents[h].numDigits
    ensures r'.contents[h].action == r.contents[h].action
    ensures r'.contents[h].contents == r.contents[h].contents + [SayNode(line)]
  {
    GatherAdd(r, h, SayNode(line))
  }

  /** A run of `say` calls on the Gather behind handle `h`. */
  function GatherSayAll(r: Response, h: nat, lines: seq<Line>): (r': Response)
    requires IsGatherHandle(r, h)
    ensures IsGatherHandle(r', h) && |r'.contents| == |r.contents| && r'.globals == r.globals
    decreases |lines|
  {
    if lines == [] then r else GatherSayAll(GatherSay(r, h, lines[0]), h, lines[1..])
  }

  /** The Gather behind `h` with `extra` nodes appended to its children. */
  function Extended(r: Response, h: nat, extra: seq<Node>): (r': Response)
    requires IsGatherHandle(r, h)
  {
    var g := r.contents[h];
    r.(contents := r.contents[h := g.(contents := g.contents + extra)])
  }

  lemma ExtendedTwice(r: Response, h: nat, a: seq<Node>, b: seq<Node>)
    requires IsGatherHandle(r, h)
    ensures IsGatherHandle(Extended(r, h, a), h)
    ensures Extended(Extended(r, h, a), h, b) == Extended(r, h, a + b)
  {
    var g := r.contents[h];
    assert (g.contents + a) + b == g.contents + (a + b);
  }

  lemma ExtendedNothing(r: Response, h: nat)
    requires IsGatherHandle(r, h)
    ensures Extended(r, h, []) == r
  {
    var g := r.contents[h];
    assert g.contents + [] == g.contents;
    assert r.contents[h := g] == r.contents;
  }

  /** A run of `say` calls appends their `Say` nodes to the Gather behind `h`,
      in call order, and changes nothing else. */
  lemma {:induction false} GatherSayAllEffect(r: Response, h: nat, lines: seq<Line>)
    requires IsGatherHandle(r, h)
    ensures GatherSayAll(r, h, lines) == Extended(r, h, Says(lines))
    decreases |lines|
  {
    if lines == [] {
      assert Says(lines) == [];
      ExtendedNothing(r, h);
    } else {
      var x, rest := SayNode(lines[0]), Says(lines[1..]);
      var r1 := GatherSay(r, h, lines[0]);
      assert r1 == Extended(r, h, [x]);
      GatherSayAllEffect(r1, h, lines[1..]);
      ExtendedTwice(r, h, [x], rest);
      assert Says(lines) == [x] + rest;
    }
  }

  /** Filling a Gather through its handle after appending it gives the same
      response as appending the Gather with its children already complete. */
  lemma GatherBuiltInPlace(r: Response, numDigits: string, action: string, lines: seq<Line>)
    ensures var (r1, h) := AddGather(r, numDigits, action);
            GatherSayAll(r1, h, lines) == Add(r, Gather(numDigits, action, Says(lines)))
  {
    var (r1, h) := AddGather(r, numDigits, action);
    GatherSayAllEffect(r1, h, lines);
    var g := Gather(numDigits, action, Says(lines));
    assert [] + Says(lines) == Says(lines);
    assert (r.contents + [Gather(numDigits, action, [])])[h := g] == r.contents + [g];
  }

  /** The handle stays live: a `say` into the Gather and an append to the
      response commute, so later Gather children still land inside the
      Gather, whatever was appended to the response in between. */
  lemma GatherSayCommutesWithAdd(r: Response, h: nat, line: Line, n: Node)
    requires IsGatherHandle(r, h)
    ensures IsGatherHandle(Add(r, n), h)
    ensures GatherSay(Add(r, n), h, line) == Add(GatherSay(r, h, line), n)
  {
    var a := GatherSay(Add(r, n), h, line);
    var b := Add(GatherSay(r, h, line), n);
    assert a.contents[h] == b.contents[h];
    assert a.contents == b.contents;
  }

  /** The rendered Gather built through its handle: a `Gather` element with
      attributes exactly `action` and `numDigits`, whose children are one
      `Say` per call, in call order, each speaking its text in its own
      language or else the default current at render time. */
  lemma GatherRendering(r: Response, numDigits: string, action: string, lines: seq<Line>)
    ensures var (r1, h) := AddGather(r, numDigits, action);
            var d := ToXml(GatherSayAll(r1, h, lines));
            && |d.root.children| == |r.contents| + 1
            && d.root.children[..|r.contents|] == ToXml(r).root.children
            && var e := d.root.children[h];
            && e.tag == "Gather" && e.text == None
            && e.attrs == map["action" := action, "numDigits" := numDigits]
            && |e.children| == |lines|
            && forall j :: 0 <= j < |lines| ==>
                 e.children[j] == Element("Say", SayAttrs(r.globals, lines[j].language), Some(lines[j].text), [])
  {
    GatherDocument(r, numDigits, action, lines);
    var g := Gather(numDigits, action, Says(lines));
    var e := RenderNode(g, r.globals);
    assert e.attrs == map["action" := action, "numDigits" := numDigits];
    SaysRendering(lines, r.globals);
  }

  /** After a Gather is appended and filled through its handle, the document
      is the earlier children followed by the completed Gather's rendering. */
  lemma GatherDocument(r: Response, numDigits: string, action: string, lines: seq<Line>)
    ensures var (r1, h) := AddGather(r, numDigits, action);
            ToXml(GatherSayAll(r1, h, lines)).root.children
            == ToXml(r).root.children + [RenderNode(Gather(numDigits, action, Says(lines)), r.globals)]
  {
    GatherBuiltInPlace(r, numDigits, action, lines);
    RenderAllAppend(r.contents, [Gather(numDigits, action, Says(lines))], r.globals);
  }

  /** The elements a run of `say` calls renders to, one per call, in order. */
  lemma SaysRendering(lines: seq<Line>, globals: map<string, string>)
    ensures var es := RenderAll(Says(lines), globals);
            && |es| == |lines|
            && forall j :: 0 <= j < |lines| ==>
                 es[j] == Element("Say", SayAttrs(globals, lines[j].language), Some(lines[j].text), [])
  {
    forall j | 0 <= j < |lines|
      ensures RenderAll(Says(lines), globals)[j]
              == Element("Say", SayAttrs(globals, lines[j].language), Some(lines[j].text), [])
    {
      MergeLanguage(globals, lines[j].language);
    }
  }

  /** A `Say` appended with or without a language renders with the defaults
      the response holds when it is rendered, whatever they were when the
      `say` call was made: replacing `globals` afterwards changes the output. */
  lemma SayResolvedAtRender(r: Response, text: string, language: Option<string>, later: map<string, string>)
    ensures var d := ToXml(AddSay(r, text, language).(globals := later));
            d.root.children[|r.contents|] == Element("Say", SayAttrs(later, language), Some(text), [])
  {
    MergeLanguage(later, language);
  }

  /** Reads a document back as the directive sequence it describes. */
  function ParseDocument(d: Document): (ns: Option<seq<Node>>) {
    if d.declaration == Declaration && d.root.tag == "Response" && d.root.attrs == map[]
       && d.root.text == None
    then ParseAll(d.root.children)
    else None
  }

  /** Rendering then reading back gives the appended directives, in append
      order, with their defaults resolved; no directive is lost, added or moved. */
  lemma DocumentRoundTrip(r: Response)
    ensures ParseDocument(ToXml(r)) == Some(ResolveAll(r.contents, r.globals))
  {
    ParseRenderAll(r.contents, r.globals);
  }

  /** The first prompt of the payphone-location flow: a nine-digit Gather
      posting to `/location/id_recieved` and speaking one prompt, in the
      default language `en-AU`. */
  lemma LocationPromptDocument()
    ensures var (r1, h) := AddGather(NewResponse(), "9", "/location/id_recieved");
            var prompt := "Please enter the nine digit payphone identification number";
            ToXml(GatherSay(r1, h, Line(prompt, None)))
            == Document(Declaration,
                 Element("Response", map[], None, [
                   Element("Gather", map["action" := "/location/id_recieved", "numDigits" := "9"], None, [
                     Element("Say", map["language" := "en-AU"], Some(prompt), [])])]))
  {
    var prompt := "Please enter the nine digit payphone identification number";
    GatherRendering(NewResponse(), "9", "/location/id_recieved", [Line(prompt, None)]);
    var (r1, h) := AddGather(NewResponse(), "9", "/location/id_recieved");
    var r2 := GatherSay(r1, h, Line(prompt, None));
    assert [Line(prompt, None)][1..] == [];
    assert GatherSayAll(r1, h, [Line(prompt, None)]) == GatherSayAll(r2, h, []) == r2;
    var d := ToXml(r2);
    assert |r2.contents| == 1 && h == 0;
    var say := Element("Say", map["language" := "en-AU"], Some(prompt), []);
    var gather := Element("Gather", map["action" := "/location/id_recieved", "numDigits" := "9"], None, [say]);
    assert d.root.children[0].children[0] == say;
    assert d.root.children[0].children == [say];
    assert d.root.children[0] == gather;
    assert d.root.children == [gather];
  }

  /** `pause(1)` renders `length="1"`, as the directions flow expects. */
  lemma PauseOneRendering(r: Response)
    ensures ToXml(AddPause(r, Int(1))).root.children[|r.contents|] == Element("Pause", map["length" := "1"], None, [])
  {
    assert NatToDecimal(1) == "1";
  }

  /** A chain of appends renders as the existing children followed by the new
      nodes' renderings, in exactly the order they were appended. */
  lemma AddAllRendering(r: Response, ns: seq<Node>)
    ensures ToXml(AddAll(r, ns)).root.children == ToXml(r).root.children + RenderAll(ns, r.globals)
  {
    RenderAllAppend(r.contents, ns, r.globals);
  }
}

=== FILE: directives.dfy ===
/** The directive nodes of a response: the closed set of node kinds the
    builder knows (twiml.py, classes `Say`, `Pause`, `Hangup`, `Gather`). */
module Directives {
  import opened Values

  datatype Node =
      /** Spoken text with its own keyword arguments (only `language` is ever
          passed by the builder); defaults are not stored here. */
    | Say(text: string, kwargs: map<string, Option<string>>)
      /** A silent delay of `length` seconds. */
    | Pause(length: Scalar)
      /** Ends the call. */
    | Hangup
      /** Collects `numDigits` keypresses, posting them to `action`, while its
          nested nodes play in order. */
    | Gather(numDigits: string, action: string, contents: seq<Node>)

  /** The arguments of one `say` call. */
  datatype Line = Line(text: string, language: Option<string>)

  /** The node a `say(text, language)` call creates. */
  function SayNode(l: Line): (n: Node) {
    Say(l.text, map["language" := l.language])
  }

  /** The nodes a run of `say` calls creates, in call order. */
  function Says(lines: seq<Line>): (s: seq<Node>)
    ensures |s| == |lines|
    ensures forall j :: 0 <= j < |lines| ==> s[j] == SayNode(lines[j])
  {
    seq(|lines|, j requires 0 <= j < |lines| => SayNode(lines[j]))
  }
}

=== FILE: globals.dfy ===
/** Process-wide attribute defaults and their merge with per-node keyword
    arguments (twiml.py, `Response.globals` and `Response.merge_globals`). */
module Globals {
  import opened Values

  /** The language a new response speaks in unless told otherwise. */
  const DefaultLanguage: string := "en-AU"

  /** The defaults table every new response starts with. */
  const DefaultGlobals: map<string, string> := map["language" := DefaultLanguage]

  /** The keyword arguments whose value is not `None`, unwrapped. */
  function PresentEntries(specific: map<string, Option<string>>): (m: map<string, string>)
    ensures forall k :: k in m <==> k in specific && specific[k].Some?
    ensures forall k :: k in m ==> m[k] == specific[k].value
  {
    map k | k in specific && specific[k].Some? :: specific[k].value
  }

  /** The attributes of a node: every default, overridden by each keyword
      argument that is not `None`. Neither argument is changed. */
  function MergeGlobals(globals: map<string, string>, specific: map<string, Option<string>>): (m: map<string, string>)
    ensures forall k :: k in m <==> k in globals || (k in specific && specific[k].Some?)
    ensures forall k :: k in specific && specific[k].Some? ==> m[k] == specific[k].value
    ensures forall k :: k in globals && (k !in specific || specific[k].None?) ==> m[k] == globals[k]
  {
    globals + PresentEntries(specific)
  }

  /** The attributes a node built by `say(text, language)` renders with: the
      defaults, with `language` replaced when one was given and untouched otherwise. */
  function SayAttrs(globals: map<string, string>, language: Option<string>): (attrs: map<string, string>) {
    if language.Some? then globals["language" := language.value] else globals
  }

  /** Merging the one keyword argument a `say` call passes gives `SayAttrs`. */
  lemma MergeLanguage(globals: map<string, string>, language: Option<string>)
    ensures MergeGlobals(globals, map["language" := language]) == SayAttrs(globals, language)
  {
    var m := MergeGlobals(globals, map["language" := language]);
    if language.Some? {
      assert m.Keys == globals.Keys + {"language"};
    } else {
      assert m.Keys == globals.Keys;
    }
  }
}

=== FILE: render.dfy ===
/** Rendering of directive nodes to XML elements (twiml.py, the `toxml`
    helper and each class's `toxml`), and the reading of an element back
    into a node, which shows that rendering loses nothing but the defaults
    it resolved. */
module Render {
  import opened Values
  import opened Xml
  import opened Globals
  import opened Directives

  /** The element one node renders to, with `globals` the root's defaults as
      they stand at render time. */
  function RenderNode(n: Node, globals: map<string, string>): (e: Element)
    ensures n.Say? ==> && e.tag == "Say" && e.text == Some(n.text) && e.children == []
                       && e.attrs == MergeGlobals(globals, n.kwargs)
    ensures n.Pause? ==> && e.tag == "Pause" && e.text == None && e.children == []
                         && e.attrs.Keys == {"length"} && e.attrs["length"] == PyStr(n.length)
    ensures n.Hangup? ==> e.tag == "Hangup" && e.attrs == map[] && e.text == None && e.children == []
    ensures n.Gather? ==> && e.tag == "Gather" && e.text == None
                          && e.attrs.Keys == {"action", "numDigits"}
                          && e.attrs["action"] == n.action && e.attrs["numDigits"] == n.numDigits
                          && e.children == RenderAll(n.contents, globals)
    decreases n
  {
    match n
    case Say(text, kwargs) => Element("Say", MergeGlobals(globals, kwargs), Some(text), [])
    case Pause(length) => Element("Pause", map["length" := PyStr(length)], None, [])
    case Hangup => Element("Hangup", map[], None, [])
    case Gather(numDigits, action, contents) =>
      Element("Gather", map["action" := action, "numDigits" := numDigits], None, RenderAll(contents, globals))
  }

  /** The elements of a container's contents: one per node, in append order,
      none dropped, reordered or merged. */
  function RenderAll(s: seq<Node>, globals: map<string, string>): (es: seq<Element>)
    ensures |es| == |s|
    ensures forall i :: 0 <= i < |s| ==> es[i] == RenderNode(s[i], globals)
    decreases s
  {
    if s == [] then [] else [RenderNode(s[0], globals)] + RenderAll(s[1..], globals)
  }

  lemma RenderAllAppend(s: seq<Node>, t: seq<Node>, globals: map<string, string>)
    ensures RenderAll(s + t, globals) == RenderAll(s, globals) + RenderAll(t, globals)
  {
    var l, a, b := RenderAll(s + t, globals), RenderAll(s, globals), RenderAll(t, globals);
    assert forall i :: 0 <= i < |l| ==> l[i] == (a + b)[i] by {
      forall i | 0 <= i < |l| ensures l[i] == (a + b)[i] {
        if i < |s| { assert (s + t)[i] == s[i]; } else { assert (s + t)[i] == t[i - |s|]; }
      }
    }
  }

  /** Attribute values seen as keyword arguments that were all given. */
  function Lift(m: map<string, string>): (kw: map<string, Option<string>>)
    ensures forall k :: k in kw <==> k in m
    ensures forall k :: k in kw ==> kw[k] == Some(m[k])
  {
    map k | k in m :: Some(m[k])
  }

  /** The node with its defaults resolved as rendering resolves them: a `Say`
      carries its full merged attribute map, a `Pause` the text of its length. */
  function Resolve(n: Node, globals: map<string, string>): (r: Node)
    ensures r.Say? == n.Say? && r.Pause? == n.Pause? && r.Hangup? == n.Hangup? && r.Gather? == n.Gather?
    ensures n.Say? ==> r.text == n.text
    ensures n.Gather? ==> r.numDigits == n.numDigits && r.action == n.action && |r.contents| == |n.contents|
    decreases n
  {
    match n
    case Say(text, kwargs) => Say(text, Lift(MergeGlobals(globals, kwargs)))
    case Pause(length) => Pause(Text(PyStr(length)))
    case Hangup => Hangup
    case Gather(numDigits, action, contents) => Gather(numDigits, action, ResolveAll(contents, globals))
  }

  function ResolveAll(s: seq<Node>, globals: map<string, string>): (rs: seq<Node>)
    ensures |rs| == |s|
    ensures forall i :: 0 <= i < |s| ==> rs[i] == Resolve(s[i], globals)
    decreases s
  {
    if s == [] then [] else [Resolve(s[0], globals)] + ResolveAll(s[1..], globals)
  }

  /** Reads an element back as a node, or `None` when the element has no
      directive's shape; on a rendered node this gives the node with its
      defaults resolved (`ParseRenderNode`). */
  function ParseNode(e: Element): (n: Option<Node>)
    decreases e
  {
    if e.tag == "Say" then
      if e.text.Some? && e.children == [] then Some(Say(e.text.value, Lift(e.attrs))) else None
    else if e.tag == "Pause" then
      if e.attrs.Keys == {"length"} && e.text == None && e.children == []
      then Some(Pause(Text(e.attrs["length"]))) else None
    else if e.tag == "Hangup" then
      if e.attrs == map[] && e.text == None && e.children == [] then Some(Hangup) else None
    else if e.tag == "Gather" then
      if e.attrs.Keys == {"action", "numDigits"} && e.text == None then
        match ParseAll(e.children)
        case Some(contents) => Some(Gather(e.attrs["numDigits"], e.attrs["action"], contents))
        case None => None
      else None
    else None
  }

  function ParseAll(es: seq<Element>): (ns: Option<seq<Node>>)
    decreases es
  {
    if es == [] then Some([])
    else match (ParseNode(es[0]), ParseAll(es[1..]))
      case (Some(n), Some(ns)) => Some([n] + ns)
      case _ => None
  }

  lemma MergeLifted(globals: map<string, string>, m: map<string, string>)
    requires globals.Keys <= m.Keys
    ensures MergeGlobals(globals, Lift(m)) == m
  {
    var r := MergeGlobals(globals, Lift(m));
    assert r.Keys == m.Keys;
  }

  /** Reading a rendered node back gives the node with its defaults resolved. */
  lemma {:induction false} ParseRenderNode(n: Node, globals: map<string, string>)
    ensures ParseNode(RenderNode(n, globals)) == Some(Resolve(n, globals))
    decreases n
  {
    match n
    case Say(_, _) =>
    case Pause(_) =>
    case Hangup =>
    case Gather(_, _, contents) =>
      ParseRenderAll(contents, globals);
  }

  lemma {:induction false} ParseRenderAll(s: seq<Node>, globals: map<string, string>)
    ensures ParseAll(RenderAll(s, globals)) == Some(ResolveAll(s, globals))
    decreases s
  {
    if s != [] {
      var es := RenderAll(s, globals);
      assert es[1..] == RenderAll(s[1..], globals);
      ParseRenderNode(s[0], globals);
      ParseRenderAll(s[1..], globals);
    }
  }

  /** A resolved node renders exactly as the original did: resolving keeps
      everything the output shows. */
  lemma {:induction false} RenderResolvedNode(n: Node, globals: map<string, string>)
    ensures RenderNode(Resolve(n, globals), globals) == RenderNode(n, globals)
    decreases n
  {
    match n
    case Say(_, kwargs) =>
      MergeLifted(globals, MergeGlobals(globals, kwargs));
    case Pause(_) =>
    case Hangup =>
    case Gather(_, _, contents) =>
      RenderResolvedAll(contents, globals);
  }

  lemma {:induction false} RenderResolvedAll(s: seq<Node>, globals: map<string, string>)
    ensures RenderAll(ResolveAll(s, globals), globals) == RenderAll(s, globals)
    decreases s
  {
    forall i | 0 <= i < |s|
      ensures RenderNode(Resolve(s[i], globals), globals) == RenderNode(s[i], globals)
    {
      RenderResolvedNode(s[i], globals);
    }
  }
}

=== FILE: values.dfy ===
/** Plain values shared by the builder: an optional value (Python's `None`),
    the scalars handed to Python's `str`, and the decimal form `str` gives an
    integer. */
module Values {

  /** `None` or a present value, as a keyword argument may be in Python. */
  datatype Option<+T> = None | Some(value: T)

  /** A value a caller may pass where the builder later applies `str`:
      an integer or a string. */
  datatype Scalar = Int(i: int) | Text(s: string)

  predicate IsDigit(c: char) {
    '0' <= c <= '9'
  }

  predicate AllDigits(s: string) {
    forall i :: 0 <= i < |s| ==> IsDigit(s[i])
  }

  function DigitValue(c: char): (d: nat)
    requires IsDigit(c)
    ensures d < 10
  {
    (c as int) - ('0' as int)
  }

  function DigitChar(d: nat): (c: char)
    requires d < 10
    ensures IsDigit(c) && DigitValue(c) == d
  {
    (('0' as int) + d) as char
  }

  /** The decimal digits of `n`, most significant first, with no leading zero. */
  function NatToDecimal(n: nat): (s: string)
    ensures |s| >= 1 && AllDigits(s)
    ensures s[0] == '0' <==> n == 0
    ensures s[0] == '0' ==> |s| == 1
    decreases n
  {
    if n < 10 then [DigitChar(n)] else NatToDecimal(n / 10) + [DigitChar(n % 10)]
  }

  /** The number a string of decimal digits denotes. */
  function DecimalValue(s: string): (n: nat)
    requires AllDigits(s)
    decreases |s|
  {
    if |s| == 0 then 0 else DecimalValue(s[..|s| - 1]) * 10 + DigitValue(s[|s| - 1])
  }

  /** `ds` is the canonical decimal text of `n`: digits only, no leading zero
      except for zero itself, denoting `n`. */
  predicate CanonicalDecimal(ds: string, n: nat) {
    |ds| >= 1 && AllDigits(ds) && (ds[0] == '0' ==> |ds| == 1) && DecimalValue(ds) == n
  }

  /** Python's `str` on an integer or a string: a string is itself; an integer
      is a minus sign exactly when negative, then the canonical decimal digits
      of its magnitude. */
  function PyStr(v: Scalar): (s: string)
    ensures v.Text? ==> s == v.s
    ensures v.Int? ==> |s| >= 1 && (s[0] == '-' <==> v.i < 0)
    ensures v.Int? && v.i < 0 ==> CanonicalDecimal(s[1..], -v.i)
    ensures v.Int? && v.i >= 0 ==> CanonicalDecimal(s, v.i)
  {
    match v
    case Int(i) =>
      var n: nat := if i < 0 then -i else i;
      DecimalRoundTrip(n);
      assert ("-" + NatToDecimal(n))[1..] == NatToDecimal(n);
      if i < 0 then "-" + NatToDecimal(n) else NatToDecimal(n)
    case Text(t) => t
  }

  /** Reads back the decimal form `str` gives an integer: an optional minus
      sign followed by at least one decimal digit; `None` for anything else. */
  function ParseInt(s: string): (v: Option<int>) {
    if |s| >= 2 && s[0] == '-' && AllDigits(s[1..]) then Some(-(DecimalValue(s[1..]) as int))
    else if |s| >= 1 && AllDigits(s) then Some(DecimalValue(s))
    else None
  }

  lemma {:induction false} DecimalRoundTrip(n: nat)
    ensures DecimalValue(NatToDecimal(n)) == n
    decreases n
  {
    if n >= 10 {
      var hi := NatToDecimal(n / 10);
      var s := hi + [DigitChar(n % 10)];
      assert s[..|s| - 1] == hi;
      DecimalRoundTrip(n / 10);
    }
  }

  /** `str` on an integer loses nothing: `int(str(i)) == i`, so two distinct
      integers never render to the same text. */
  lemma IntStrRoundTrip(i: int)
    ensures ParseInt(PyStr(Int(i))) == Some(i)
  {
    if i < 0 {
      NegativeStrRoundTrip(-i);
    } else {
      NonNegativeStrRoundTrip(i);
    }
  }

  lemma NegativeStrRoundTrip(n: nat)
    requires n > 0
    ensures ParseInt("-" + NatToDecimal(n)) == Some(-(n as int))
  {
    var d := NatToDecimal(n);
    var s := "-" + d;
    assert s[1..] == d;
    DecimalRoundTrip(n);
  }

  lemma NonNegativeStrRoundTrip(n: nat)
    ensures ParseInt(NatToDecimal(n)) == Some(n)
  {
    var d := NatToDecimal(n);
    assert d[0] != '-' by { assert IsDigit(d[0]); }
    DecimalRoundTrip(n);
  }

  lemma IntStrInjective(a: int, b: int)
    ensures PyStr(Int(a)) == PyStr(Int(b)) ==> a == b
  {
    IntStrRoundTrip(a);
    IntStrRoundTrip(b);
  }
}

=== FILE: xml.dfy ===
/** The output of rendering, as an abstract XML element tree rather than text. */
module Xml {
  import opened Values

  /** One XML element: tag name, attribute map, optional text content and
      ordered child elements. */
  datatype Element = Element(tag: string, attrs: map<string, string>, text: Option<string>, children: seq<Element>)

  /** The XML declaration the builder writes before the root element. */
  const Declaration: string := "<?xml version=\"1.0\" encoding=\"UTF-8\"?>"

  /** A whole call-control document: the declaration followed by one root element. */
  datatype Document = Document(declaration: string, root: Element)
}
